=== FILE: README.md ===
# GSB expense sheets ("fiches de frais"): a Dafny model of the lifecycle

This project models the data-access class `PdoGsb` and the visitor controller `c_gererFrais` of the GSB
expense application. Medical visitors keep one expense sheet (`fichefrais`) per month. A sheet holds
flat-rate lines (`lignefraisforfait`, a quantity per catalogue type of `fraisforfait`) and free-form lines
(`lignefraishorsforfait`, each with a label, date and amount). An accountant refuses or defers free-form
lines, computes the validated amount, and moves the sheet through the states `CR` → `CL` → `VA` → `RB`.

The database is an immutable value (`Schema.Database`). Each table is a map keyed by its primary key. The
subset type `Schema.Db` carries three table invariants:
- catalogue ids are distinct;
- free-form line ids are below the auto-increment counter;
- a flat-rate line only exists alongside its sheet.

Each modelled `PdoGsb` transition is a pure function from the database before the call to the database after
it; each modelled query is a pure function of the database. The modules are:

- `Text`: `LEFT`, PHP `substr`, `LIKE 'p%'`, and the lexicographic order used by `MAX(mois)` and
  `ORDER BY mois`. The order is proved to be a total order.
- `Months`: month keys, their year/month split, the greatest key, and the descending listing.
- `Schema`: tables, rows and invariants.
- `PdoGsb`: the queries and transitions.
- `Totaux`: the two aggregate queries, with point-update lemmas for both sums.
- `Lifecycle`: how each transition moves the totals, and properties that span several calls.
- `GererFrais`: the controller's `switch ($action)` as one step function over the database and the
  request's error list.
- `Scenarios`: worked examples on a one-type catalogue.
- `SqlNull`: the NULL behaviour of the aggregates, as written and as corrected (see Findings).

In the source, SQL statements whose `WHERE` matches no row do nothing, and the model keeps that. An
`INSERT` on an existing primary key also changes nothing: PDO's default error mode under PHP 7 is silent.

Some helpers are defined in a file that is not part of this model: `getMois`, `getMoisSuivant`,
`dateFrancaisVersAnglais`, `lesQteFraisValides`, `valideInfosFrais` and `nbErreurs`. The model takes them
as function-valued parameters and assumes nothing about them: no year rollover and no format round trip.
`ajouterErreur`, from the same file, is read as "append to the request's error list". `now()` is a `Tick`
passed in by the caller. Money is an `int` number of cents.

The model follows the code, which does not guard these cases:
- Deleting, refusing or deferring a line checks neither the sheet's state nor its owner.
- Editing a line only checks that it belongs to the given (visitor, month). It does not check the sheet's state.
- Deferring does not create the next month's sheet.
- An empty `SUM` is not guarded (see Findings).
- Validating the quantity batch is delegated entirely to `lesQteFraisValides`.

## Model

| member | source | states |
|---|---|---|
| Months.Split | controleurs/c_gererFrais.php:13-15 | For a six-character key, the year is its first four characters and the month its last two |
| Months.SplitRoundTrip | includes/class.pdogsb.inc.php:420-426 | Year part followed by month part gives the key back if and only if the key has at most six characters |
| Months.MaxMonth | includes/class.pdogsb.inc.php:301-305 | `MAX(mois)` is one of the keys and no key is above it |
| Months.SortDesc | includes/class.pdogsb.inc.php:409-413 | `ORDER BY mois desc` lists every key exactly once, strictly decreasing |
| PdoGsb.EstPremierFraisMois | includes/class.pdogsb.inc.php:275-290 | True exactly when no sheet exists for (visitor, month) |
| PdoGsb.DernierMoisSaisi | includes/class.pdogsb.inc.php:299-311 | Absent exactly when the visitor has no sheet; otherwise one of the visitor's months, with none later |
| PdoGsb.GetLesMoisDisponibles | includes/class.pdogsb.inc.php:407-432 | One entry per sheet of the visitor, latest first, each with its year/month split |
| PdoGsb.GetLesMoisVA | includes/class.pdogsb.inc.php:706-730 | Latest first, each month appears once per visitor whose sheet for it is `VA`, and no other month appears |
| PdoGsb.ParFicheCompte | includes/class.pdogsb.inc.php:708-713 | The listing without `DISTINCT` repeats a month once per validated sheet of that month |
| PdoGsb.MajEtatFicheFrais | includes/class.pdogsb.inc.php:474-486 | Only the addressed sheet changes, and only in its state and modification date |
| PdoGsb.RembourserFiche | includes/class.pdogsb.inc.php:687-697 | Only the addressed sheet changes: it becomes `RB` with a new date, and its validated amount is kept |
| Schema.IdsFrais | includes/class.pdogsb.inc.php:200-208 | The listed ids are exactly the ids of the catalogue rows |
| PdoGsb.ClotureDerniere | includes/class.pdogsb.inc.php:328-332 | The visitor's latest sheet becomes `CL` if it was `CR`; every other sheet, including other visitors' sheets, is untouched |
| PdoGsb.CreeNouvellesLignesFrais | includes/class.pdogsb.inc.php:326-353 | Closes the visitor's latest sheet if it is `CR`, adds (v, m) as `CR`/0/0, adds a zero line for every catalogue id, and keeps every existing line |
| PdoGsb.MajFraisForfait | includes/class.pdogsb.inc.php:222-240 | Existing (v, m, id) lines with id in the batch take the batch quantity; batch ids with no line are ignored; nothing else changes |
| PdoGsb.CreeNouveauFraisHorsForfait | includes/class.pdogsb.inc.php:367-380 | Exactly one new line under a fresh id, holding the given fields and the converted date; existing lines are unchanged |
| PdoGsb.MajFraisHorsForfait | includes/class.pdogsb.inc.php:559-579 | Replaces label, date and amount of the line only when it belongs to (v, m); otherwise nothing changes |
| PdoGsb.SupprimerFraisHorsForfait | includes/class.pdogsb.inc.php:389-397 | Removes exactly the line with that id, whatever its sheet or that sheet's state |
| PdoGsb.LibelleRefuse | includes/class.pdogsb.inc.php:658 | The refused label starts with "REFUSE", is a prefix of "REFUSE " + old label, and its length is the smaller of that text's length and 100, so it equals the whole text when that fits |
| PdoGsb.RefuserFraisHorsForfait | includes/class.pdogsb.inc.php:654-663 | Only the label of that line changes, and it becomes the refused label |
| PdoGsb.ReporterFraisHorsForfait | includes/class.pdogsb.inc.php:669-681 | Only that line's month changes; it becomes `getMoisSuivant(ceMois)`, which is also the returned value; no sheet is created |
| PdoGsb.CalculMontantValide | includes/class.pdogsb.inc.php:627-649 | Only that sheet's validated amount changes, and it becomes the sum of the two totals |
| Totaux.MontantTotal | includes/class.pdogsb.inc.php:586-597 | A sheet that has no flat-rate line, or whose quantities are all 0, totals 0 |
| Totaux.SommeForfaitFrame | includes/class.pdogsb.inc.php:586-597 | The flat-rate total depends only on each catalogue type's quantity × unit amount in the sheet |
| Totaux.SommeForfaitPoint | includes/class.pdogsb.inc.php:586-597 | Changing one type's line moves the flat-rate total by exactly that line's change in amount |
| Totaux.SommeForfaitNulle | includes/class.pdogsb.inc.php:586-597 | A sheet whose quantities are all 0 has flat-rate total 0 |
| Totaux.SommeHFPoint | includes/class.pdogsb.inc.php:605-618 | Changing one free-form line moves the free-form total by exactly that line's change in contribution |
| Totaux.TotalHFPoint | includes/class.pdogsb.inc.php:605-618 | The same, for every sheet at once, over all line ids |
| Lifecycle.RefusRetireLaLigne | includes/class.pdogsb.inc.php:605-618 | After a refusal the line no longer counts in any free-form total; flat-rate totals are unchanged |
| Lifecycle.RefusStable | includes/class.pdogsb.inc.php:654-663 | Refusing an already refused line leaves every total unchanged |
| Lifecycle.ReportDeplaceLaLigne | includes/class.pdogsb.inc.php:669-681 | A deferred, non-refused line leaves its old month's total and is added to the returned month's total |
| Lifecycle.CreationAjouteLaLigne | includes/class.pdogsb.inc.php:367-380 | A new line adds its amount to its sheet's free-form total unless its label already starts with "REFUSE" |
| Lifecycle.SuppressionRetireLaLigne | includes/class.pdogsb.inc.php:389-397 | Deleting a line subtracts exactly its contribution from every free-form total |
| Lifecycle.MajHFRemplaceLaLigne | includes/class.pdogsb.inc.php:559-579 | Editing a line replaces its old contribution with the new one |
| Lifecycle.MajFraisForfaitIdempotente | includes/class.pdogsb.inc.php:222-240 | Applying a batch twice is the same as applying it once |
| Lifecycle.MajFraisForfaitAutresFiches | includes/class.pdogsb.inc.php:222-240 | A batch for (v, m) leaves every other sheet's flat-rate total unchanged |
| Lifecycle.MajUneQuantite | includes/class.pdogsb.inc.php:586-597 | Setting one existing quantity moves the flat-rate total by (new − old) × unit amount |
| Lifecycle.NouvelleFicheAZero | includes/class.pdogsb.inc.php:341-352 | A newly opened sheet has flat-rate total 0; no other sheet's totals move |
| Lifecycle.UneSeuleFicheEnCours | includes/class.pdogsb.inc.php:326-353 | If every open sheet of the visitor is its latest one, opening a later month leaves the new sheet as the visitor's only `CR` sheet and keeps that property |
| Lifecycle.RefusExclutDuMontantValide | includes/class.pdogsb.inc.php:627-663 | Refusing a line of the sheet that is not yet refused, and then recomputing, gives the previous totals minus that line's amount |
| Lifecycle.CalculMontantValideIdempotent | includes/class.pdogsb.inc.php:627-649 | Recomputing the validated amount a second time changes nothing |
| GererFrais.Step | controleurs/c_gererFrais.php:17-54 | Opens the month only on first entry; a failed quantity check writes nothing and records one error; a free-form line is inserted only when no error was collected; deletion removes exactly the given id |
| GererFrais.SaisirFraisIdempotent | controleurs/c_gererFrais.php:18-22 | A second `saisirFrais` in the same month changes nothing |
| Scenarios.Saisie | includes/class.pdogsb.inc.php:586-618 | Three transport units at 10.00 and a 42.50 taxi give totals of 30.00 and 42.50 |
| Scenarios.ValidationComplete | includes/class.pdogsb.inc.php:627-649 | That sheet is validated at 72.50 in state `VA` |
| Scenarios.ValidationApresRefus | includes/class.pdogsb.inc.php:654-663 | After refusing the taxi line, its label is "REFUSE Taxi" and the sheet is validated at 30.00 |
| Scenarios.OuvertureFevrier | includes/class.pdogsb.inc.php:326-353 | Opening February closes the open January sheet and opens February with one zero line |
| Totaux.MontantTotalHorsF | includes/class.pdogsb.inc.php:605-618 | A sheet none of whose free-form lines counts (there are none, or all are refused) totals 0 |
| SqlNull.MontantTotalHorsFCoalesce | includes/class.pdogsb.inc.php:605-618 | The 0-for-empty free-form total equals the SQL total with NULL read as 0 |
| SqlNull.MontantValideNulTelQuel | includes/class.pdogsb.inc.php:627-649 | As written, a sheet with no free-form line is validated as NULL |
| SqlNull.MontantValideCorrige | includes/class.pdogsb.inc.php:627-649 | With the empty sum read as 0, the same sheet is validated at its flat-rate total |

## Left out

- The PDO connection singleton, its constructor and destructor (includes/class.pdogsb.inc.php:24-68): process-wide connection plumbing.
- `getInfosVisiteur` and `getInfosComptable` (includes/class.pdogsb.inc.php:78-111): login lookups, not lifecycle logic.
- `majNbJustificatifs` (includes/class.pdogsb.inc.php:253-265): it names the undefined class `PdoGB`, so it cannot run as written. No operation of the model changes `nbJustificatifs`.
- `clotureFiche` (includes/class.pdogsb.inc.php:492-501): it filters on `fichefrais.moisPrecedent`, which the sheet insert never fills in, so it is not modelled as working behaviour.
- The read-only listings that only feed views: `getLesFraisHorsForfait`, `getLesFraisForfait` and its duplicate `getLesFrais1`, `getNbjustificatifs` and `getLesVisiteurs`. `getLesInfosFicheFrais` and `getLesIdFrais` appear only through their use inside `creeNouvellesLignesFrais`.
- The helpers defined elsewhere (`getMois`, `getMoisSuivant`, the date conversions, `lesQteFraisValides`, `valideInfosFrais`, `nbErreurs`) are parameters with no assumed behaviour. That file is not part of this model.
- `now()` is a caller-supplied tick. No clock is modelled.
- Amounts are integer cents and quantities are integers. Parsing the form's strings and floats, and the `PDO::PARAM_INT` binding of a float amount (includes/class.pdogsb.inc.php:378, 575), are not modelled.
- Totaux.MontantTotalHorsF: an empty `SUM` is read as 0. The as-written NULL behaviour is modelled separately in `SqlNull` (see Findings).
- PdoGsb.MajEtatFicheFrais: `idEtat` is a free string in the source. The model restricts it to the four states `CR`, `CL`, `VA` and `RB`.
- Totaux.ApportLigne: `LIKE "REFUSE%"` is modelled as a case-sensitive prefix test. The database collation, which may make it case-insensitive, is not modelled.
- Every string comparison the SQL makes is modelled as exact, code-point-ordered string comparison: the key equalities in `WHERE` clauses, the join on `idfraisforfait`, `MAX(mois)` and `ORDER BY mois`. The database collation, which may ignore case or trailing spaces, is not modelled.
- Totaux.MontantTotal: a sheet with no flat-rate line sums to 0. In the source the empty `SUM` is NULL; `SqlNull.MontantTotalSql` models that case.
- Schema.IdsFrais: the ids are a set. The `ORDER BY` of `getLesIdFrais` only fixes the order of the inserts in `creeNouvellesLignesFrais`, which does not change the resulting table.
- Months.Split: PHP 7's `substr` returns `false` when the key is shorter than the start. This is read as the empty string.
- PdoGsb.CalculMontantValide: the source loops over the rows of the two aggregate results. An aggregate always has exactly one row, so the model takes the two values directly.
- PdoGsb.CreeNouveauFraisHorsForfait: column widths and ranges are not enforced. A label longer than the 100-character `libelle` column or an amount outside its `DECIMAL` column is stored whole. The database would reject such a row, which PDO's silent mode turns into no insert, or truncate it.
- PdoGsb.MajFraisHorsForfait: column widths and ranges are not enforced, for the same reason. An over-long label or out-of-range amount is stored whole, where the database would reject the update, leaving the line unchanged, or truncate it.
- PdoGsb.MajFraisForfait: quantities are unbounded integers. The `int` range of the `quantite` column is not enforced.
- Each call is one atomic step. The lack of transactions between the N+2 statements of `creeNouvellesLignesFrais`, concurrent requests and crashes mid-sequence are not modelled.
- The controller's session access, `filter_input` sanitising, view includes and post-dispatch listings (controleurs/c_gererFrais.php:12, 16, 55-58), plus controleurs/c_accueil.php and vues/v_erreurs.php: HTTP and rendering.

## Findings

| source | as written | input that shows it | evidently intended | confidence | as-written member | corrected member |
|---|---|---|---|---|---|---|
| includes/class.pdogsb.inc.php:605-649 | `SUM(montant)` over no qualifying free-form line is NULL, and `:montantTotal + :montantTotalHF` with a NULL operand stores NULL | a sheet with three transport units at 10.00 and no free-form line (or only refused ones) | the empty free-form sum counts as 0, so the sheet is validated at 30.00 | medium, not executed | SqlNull.MontantValideNulTelQuel | SqlNull.MontantValideCorrige |

=== FILE: gerer_frais.dfy ===
/**
 * The visitor controller `c_gererFrais`: one request is one action applied
 * to the database and to the request's error list. The month is the current
 * one, `getMois(date('d/m/Y'))`.
 */
module GererFrais {
  import opened Months
  import opened Schema
  import opened PdoGsb

  /** The request's error messages, `$_REQUEST['erreurs']`. */
  type Erreurs = seq<string>

  const MsgQteNonNumeriques: string := "Les valeurs des frais doivent être numériques"

  /** The values of `action` the controller dispatches on, with their request parameters. */
  datatype Action =
    | SaisirFrais
    | ValiderMajFraisForfait(lesFrais: map<FraisId, int>)
    | ValiderCreationFrais(dateFrais: string, libelle: string, montant: Montant)
    | SupprimerFrais(idFrais: LigneId)
    | AutreAction

  /**
   * What the controller takes from outside the database: today's date, the
   * value of `now()`, and the helper functions whose definitions are not
   * part of this model.
   */
  datatype Env = Env(
    aujourdhui: string,
    now: Tick,
    getMois: string -> Month,
    dateFrancaisVersAnglais: string -> string,
    lesQteFraisValides: map<FraisId, int> -> bool,
    valideInfosFrais: (Erreurs, string, string, Montant) -> Erreurs,
    nbErreurs: Erreurs -> nat)

  /** The state one request works on. */
  datatype Contexte = Contexte(db: Db, erreurs: Erreurs)

  function MoisCourant(env: Env): Month {
    env.getMois(env.aujourdhui)
  }

  /** `ajouterErreur`: the message goes at the end of the request's list. */
  function AjouterErreur(erreurs: Erreurs, msg: string): Erreurs {
    erreurs + [msg]
  }

  /** The `switch ($action)` of the controller, for visitor v. */
  function Step(c: Contexte, env: Env, v: VisiteurId, action: Action): (r: Contexte)
    // opening the month: only on the first entry of the month, never twice
    ensures action.SaisirFrais? ==> r.erreurs == c.erreurs && (v, MoisCourant(env)) in r.db.fiches
    ensures action.SaisirFrais? && (v, MoisCourant(env)) in c.db.fiches ==> r == c
    ensures action.SaisirFrais? && (v, MoisCourant(env)) !in c.db.fiches ==>
      r.db == CreeNouvellesLignesFrais(c.db, v, MoisCourant(env), env.now)
    // quantities: all or nothing
    ensures action.ValiderMajFraisForfait? && !env.lesQteFraisValides(action.lesFrais) ==>
      r.db == c.db && r.erreurs == c.erreurs + [MsgQteNonNumeriques]
    ensures action.ValiderMajFraisForfait? && env.lesQteFraisValides(action.lesFrais) ==>
      r.erreurs == c.erreurs && r.db == MajFraisForfait(c.db, v, MoisCourant(env), action.lesFrais)
    // a free-form line: inserted only when no error was collected
    ensures action.ValiderCreationFrais? ==>
      r.erreurs == env.valideInfosFrais(c.erreurs, action.dateFrais, action.libelle, action.montant)
    ensures action.ValiderCreationFrais? && env.nbErreurs(r.erreurs) != 0 ==> r.db == c.db
    ensures action.ValiderCreationFrais? && env.nbErreurs(r.erreurs) == 0 ==>
      && r.db.horsForfait.Keys == c.db.horsForfait.Keys + {c.db.nextId}
      && c.db.nextId !in c.db.horsForfait
      && r.db.horsForfait[c.db.nextId] == LigneHorsForfait(v, MoisCourant(env), action.libelle,
                                                          env.dateFrancaisVersAnglais(action.dateFrais), action.montant)
      && (forall i :: i in c.db.horsForfait ==> r.db.horsForfait[i] == c.db.horsForfait[i])
      && r.db.fiches == c.db.fiches && r.db.forfait == c.db.forfait
    // deletion: exactly the line asked for, whoever owns it
    ensures action.SupprimerFrais? ==>
      && r.erreurs == c.erreurs
      && r.db.horsForfait.Keys == c.db.horsForfait.Keys - {action.idFrais}
      && (forall i :: i in r.db.horsForfait ==> r.db.horsForfait[i] == c.db.horsForfait[i])
      && r.db.fiches == c.db.fiches && r.db.forfait == c.db.forfait
    ensures action.AutreAction? ==> r == c
  {
    var mois := MoisCourant(env);
    match action
    case SaisirFrais =>
      if EstPremierFraisMois(c.db, v, mois) then c.(db := CreeNouvellesLignesFrais(c.db, v, mois, env.now)) else c
    case ValiderMajFraisForfait(lesFrais) =>
      if env.lesQteFraisValides(lesFrais) then c.(db := MajFraisForfait(c.db, v, mois, lesFrais))
      else c.(erreurs := AjouterErreur(c.erreurs, MsgQteNonNumeriques))
    case ValiderCreationFrais(dateFrais, libelle, montant) =>
      var erreurs := env.valideInfosFrais(c.erreurs, dateFrais, libelle, montant);
      if env.nbErreurs(erreurs) != 0 then c.(erreurs := erreurs)
      else Contexte(CreeNouveauFraisHorsForfait(c.db, v, mois, libelle, dateFrais, montant, env.dateFrancaisVersAnglais), erreurs)
    case SupprimerFrais(idFrais) =>
      c.(db := SupprimerFraisHorsForfait(c.db, idFrais))
    case AutreAction => c
  }

  /** Entering expenses twice in the same month opens the month once: the second request changes nothing. */
  lemma SaisirFraisIdempotent(c: Contexte, env: Env, v: VisiteurId)
    ensures Step(Step(c, env, v, SaisirFrais), env, v, SaisirFrais) == Step(c, env, v, SaisirFrais)
  {
  }
}

=== FILE: lifecycle.dfy ===
/**
 * How the lifecycle operations of `PdoGsb` move the two totals, and the
 * properties that hold across several calls: refusal and deferral take a
 * line out of its sheet's total, recomputing the validated amount is
 * idempotent, opening a month keeps at most one sheet open.
 */
module Lifecycle {
  import opened Text
  import opened Months
  import opened Schema
  import opened PdoGsb
  import opened Totaux

  // ---------------------------------------------------------- free form

  /** After a refusal the line adds nothing to any total; every other line still adds what it did. */
  lemma RefusRetireLaLigne(d: Db, id: LigneId)
    ensures forall v, m ::
      MontantTotalHorsF(RefuserFraisHorsForfait(d, id), v, m) == MontantTotalHorsF(d, v, m) - ApportHF(d.horsForfait, id, v, m)
    ensures forall v, m :: MontantTotal(RefuserFraisHorsForfait(d, id), v, m) == MontantTotal(d, v, m)
  {
    var r := RefuserFraisHorsForfait(d, id);
    assert forall i :: i != id ==> MemeLigne(d, r, i);
    TotalHFPoint(d, r, id);
    if id in r.horsForfait {
      assert EstRefuse(r.horsForfait[id].libelle);
    }
  }

  /** Refusing a line twice leaves the same totals as refusing it once (its label grows, its weight does not). */
  lemma RefusStable(d: Db, id: LigneId)
    ensures forall v, m ::
      MontantTotalHorsF(RefuserFraisHorsForfait(RefuserFraisHorsForfait(d, id), id), v, m)
        == MontantTotalHorsF(RefuserFraisHorsForfait(d, id), v, m)
  {
    var r := RefuserFraisHorsForfait(d, id);
    RefusRetireLaLigne(r, id);
    if id in r.horsForfait {
      assert EstRefuse(r.horsForfait[id].libelle);
    }
  }

  /**
   * Deferring a line takes what it added out of its old month and adds it to
   * the month returned; a refused line adds nothing to either.
   */
  lemma ReportDeplaceLaLigne(d: Db, id: LigneId, ceMois: Month, moisSuivant: Month -> Month)
    requires id in d.horsForfait
    ensures var l, r := d.horsForfait[id], ReporterFraisHorsForfait(d, id, ceMois, moisSuivant);
      forall v, m :: MontantTotalHorsF(r.db, v, m)
        == MontantTotalHorsF(d, v, m) - ApportLigne(l, v, m) + ApportLigne(l.(mois := r.mois), v, m)
    ensures var l, r := d.horsForfait[id], ReporterFraisHorsForfait(d, id, ceMois, moisSuivant);
      !EstRefuse(l.libelle) && r.mois != l.mois ==>
        && MontantTotalHorsF(r.db, l.visiteur, l.mois) == MontantTotalHorsF(d, l.visiteur, l.mois) - l.montant
        && MontantTotalHorsF(r.db, l.visiteur, r.mois) == MontantTotalHorsF(d, l.visiteur, r.mois) + l.montant
  {
    var r := ReporterFraisHorsForfait(d, id, ceMois, moisSuivant);
    assert forall i :: i != id ==> MemeLigne(d, r.db, i);
    TotalHFPoint(d, r.db, id);
  }

  /** A new line adds its amount to its own sheet's total, unless its label already reads as refused. */
  lemma CreationAjouteLaLigne(d: Db, v: VisiteurId, m: Month, libelle: string, date: string,
                              montant: Montant, versStockage: string -> string)
    ensures var r := CreeNouveauFraisHorsForfait(d, v, m, libelle, date, montant, versStockage);
      forall v', m' :: MontantTotalHorsF(r, v', m')
        == MontantTotalHorsF(d, v', m') + ApportLigne(LigneHorsForfait(v, m, libelle, versStockage(date), montant), v', m')
    ensures var r := CreeNouveauFraisHorsForfait(d, v, m, libelle, date, montant, versStockage);
      MontantTotalHorsF(r, v, m) == MontantTotalHorsF(d, v, m) + (if EstRefuse(libelle) then 0 else montant)
  {
    var r := CreeNouveauFraisHorsForfait(d, v, m, libelle, date, montant, versStockage);
    forall v', m'
      ensures MontantTotalHorsF(r, v', m')
        == MontantTotalHorsF(d, v', m') + ApportLigne(LigneHorsForfait(v, m, libelle, versStockage(date), montant), v', m')
    {
      forall i | 0 <= i < d.nextId && i != d.nextId
        ensures ApportHF(d.horsForfait, i, v', m') == ApportHF(r.horsForfait, i, v', m')
      {
      }
      SommeHFPoint(d.horsForfait, r.horsForfait, v', m', d.nextId, d.nextId);
    }
  }

  /** Deleting a line takes exactly what it added out of the totals. */
  lemma SuppressionRetireLaLigne(d: Db, id: LigneId)
    ensures forall v, m ::
      MontantTotalHorsF(SupprimerFraisHorsForfait(d, id), v, m) == MontantTotalHorsF(d, v, m) - ApportHF(d.horsForfait, id, v, m)
  {
    var r := SupprimerFraisHorsForfait(d, id);
    assert forall i :: i != id ==> MemeLigne(d, r, i);
    TotalHFPoint(d, r, id);
  }

  /** Editing a line of (v, m) swaps what the old line added for what the new one adds. */
  lemma MajHFRemplaceLaLigne(d: Db, v: VisiteurId, m: Month, libelle: string, date: string,
                             montant: Montant, id: LigneId, versStockage: string -> string)
    requires LigneDe(d, id, v, m)
    ensures var r := MajFraisHorsForfait(d, v, m, libelle, date, montant, id, versStockage);
      MontantTotalHorsF(r, v, m) == MontantTotalHorsF(d, v, m) - ApportHF(d.horsForfait, id, v, m)
        + (if EstRefuse(libelle) then 0 else montant)
  {
    var r := MajFraisHorsForfait(d, v, m, libelle, date, montant, id, versStockage);
    assert forall i :: i != id ==> MemeLigne(d, r, i);
    TotalHFPoint(d, r, id);
  }

  // ---------------------------------------------------------- flat rate

  /** Applying the same batch of quantities twice is the same as applying it once. */
  lemma MajFraisForfaitIdempotente(d: Db, v: VisiteurId, m: Month, lesFrais: map<FraisId, int>)
    ensures MajFraisForfait(MajFraisForfait(d, v, m, lesFrais), v, m, lesFrais) == MajFraisForfait(d, v, m, lesFrais)
  {
    var r1 := MajFraisForfait(d, v, m, lesFrais);
    var r2 := MajFraisForfait(r1, v, m, lesFrais);
    assert r2.forfait == r1.forfait;
  }

  /** A batch for (v, m) leaves the flat-rate total of every other sheet as it was. */
  lemma MajFraisForfaitAutresFiches(d: Db, v: VisiteurId, m: Month, lesFrais: map<FraisId, int>, v': VisiteurId, m': Month)
    requires (v', m') != (v, m)
    ensures MontantTotal(MajFraisForfait(d, v, m, lesFrais), v', m') == MontantTotal(d, v', m')
  {
    var r := MajFraisForfait(d, v, m, lesFrais);
    forall j | 0 <= j < |d.catalogue|
      ensures MontantLigneForfait(d.forfait, v', m', d.catalogue[j]) == MontantLigneForfait(r.forfait, v', m', d.catalogue[j])
    {
    }
    SommeForfaitFrame(d.forfait, r.forfait, d.catalogue, v', m');
  }

  /** Setting the quantity of one existing line moves the flat-rate total by the change times the unit amount. */
  lemma MajUneQuantite(d: Db, v: VisiteurId, m: Month, j: nat, q: int)
    requires j < |d.catalogue| && (v, m, d.catalogue[j].id) in d.forfait
    ensures var f := d.catalogue[j];
      MontantTotal(MajFraisForfait(d, v, m, map[f.id := q]), v, m)
        == MontantTotal(d, v, m) + (q - d.forfait[(v, m, f.id)]) * f.montant
  {
    var f := d.catalogue[j];
    var r := MajFraisForfait(d, v, m, map[f.id := q]);
    forall i | 0 <= i < |d.catalogue| && i != j
      ensures MontantLigneForfait(d.forfait, v, m, d.catalogue[i]) == MontantLigneForfait(r.forfait, v, m, d.catalogue[i])
    {
      assert d.catalogue[i].id != f.id;
    }
    SommeForfaitPoint(d.forfait, r.forfait, d.catalogue, v, m, j);
    assert r.forfait[(v, m, f.id)] == q;
  }

  // ---------------------------------------------------------- opening a month

  /** A freshly opened sheet has a flat-rate total of 0 and no other sheet's totals move. */
  lemma NouvelleFicheAZero(d: Db, v: VisiteurId, m: Month, now: Tick)
    requires (v, m) !in d.fiches
    ensures MontantTotal(CreeNouvellesLignesFrais(d, v, m, now), v, m) == 0
    ensures forall v', m' :: (v', m') != (v, m) ==>
      MontantTotal(CreeNouvellesLignesFrais(d, v, m, now), v', m') == MontantTotal(d, v', m')
    ensures forall v', m' ::
      MontantTotalHorsF(CreeNouvellesLignesFrais(d, v, m, now), v', m') == MontantTotalHorsF(d, v', m')
  {
    var r := CreeNouvellesLignesFrais(d, v, m, now);
    SommeForfaitNulle(r.forfait, r.catalogue, v, m);
    forall v', m' | (v', m') != (v, m)
      ensures MontantTotal(r, v', m') == MontantTotal(d, v', m')
    {
      forall j | 0 <= j < |d.catalogue|
        ensures MontantLigneForfait(d.forfait, v', m', d.catalogue[j]) == MontantLigneForfait(r.forfait, v', m', d.catalogue[j])
      {
        var k := (v', m', d.catalogue[j].id);
        assert k in r.forfait && k !in d.forfait ==> k.0 == v && k.1 == m;
      }
      SommeForfaitFrame(d.forfait, r.forfait, d.catalogue, v', m');
    }
  }

  /** Every open sheet of the visitor is the visitor's latest one. */
  ghost predicate EnCoursEstDerniere(d: Database, v: VisiteurId) {
    forall x :: x in MoisDe(d.fiches, v) && d.fiches[(v, x)].etat == CR ==>
      forall y :: y in MoisDe(d.fiches, v) ==> LexLe(y, x)
  }

  /**
   * Opening a month later than every existing one keeps a visitor with at
   * most one open sheet: afterwards the new month is the only one in `CR`.
   */
  lemma UneSeuleFicheEnCours(d: Db, v: VisiteurId, m: Month, now: Tick)
    requires EnCoursEstDerniere(d, v)
    requires forall x :: x in MoisDe(d.fiches, v) ==> LexLt(x, m)
    ensures var r := CreeNouvellesLignesFrais(d, v, m, now);
      forall x :: x in MoisDe(r.fiches, v) && r.fiches[(v, x)].etat == CR <==> x == m
    ensures EnCoursEstDerniere(CreeNouvellesLignesFrais(d, v, m, now), v)
  {
    var r := CreeNouvellesLignesFrais(d, v, m, now);
    assert (v, m) !in d.fiches;
    forall x | x in MoisDe(d.fiches, v)
      ensures r.fiches[(v, x)].etat != CR
    {
      if d.fiches[(v, x)].etat == CR {
        assert EstDerniereEnCours(d, v, x);
      }
    }
    forall y | y in MoisDe(r.fiches, v)
      ensures LexLe(y, m)
    {
      if y == m {
        LexLeReflexive(m);
      }
    }
  }

  // ---------------------------------------------------------- validation

  /**
   * Recomputing the validated amount after refusing a line of the sheet
   * gives the totals before the refusal minus that line's amount.
   */
  lemma RefusExclutDuMontantValide(d: Db, id: LigneId, v: VisiteurId, m: Month)
    requires LigneDe(d, id, v, m) && !EstRefuse(d.horsForfait[id].libelle)
    requires (v, m) in d.fiches
    ensures var d1 := RefuserFraisHorsForfait(d, id);
      var d2 := CalculMontantValide(d1, v, m, MontantTotal(d1, v, m), MontantTotalHorsF(d1, v, m));
      d2.fiches[(v, m)].montantValide == MontantTotal(d, v, m) + MontantTotalHorsF(d, v, m) - d.horsForfait[id].montant
  {
    RefusRetireLaLigne(d, id);
  }

  /** The validated amount is recomputed from the lines, never accumulated: doing it twice changes nothing more. */
  lemma CalculMontantValideIdempotent(d: Db, v: VisiteurId, m: Month)
    ensures var d1 := CalculMontantValide(d, v, m, MontantTotal(d, v, m), MontantTotalHorsF(d, v, m));
      CalculMontantValide(d1, v, m, MontantTotal(d1, v, m), MontantTotalHorsF(d1, v, m)) == d1
  {
    var d1 := CalculMontantValide(d, v, m, MontantTotal(d, v, m), MontantTotalHorsF(d, v, m));
    assert MontantTotal(d1, v, m) == MontantTotal(d, v, m);
    assert MontantTotalHorsF(d1, v, m) == MontantTotalHorsF(d, v, m);
  }
}

=== FILE: months.dfy ===
/**
 * Month keys `aaaamm`: their split into year and month for the views, the
 * latest key of a set (`MAX(mois)`) and the descending listing
 * (`ORDER BY mois desc`).
 */
module Months {
  import opened Text

  /** A month key as stored in `fichefrais.mois`, normally six digits `aaaamm`. */
  type Month = string

  /** One row of a month listing: the key and its year and month parts. */
  datatype MonthEntry = MonthEntry(mois: Month, numAnnee: string, numMois: string)

  /** `numAnnee = substr(mois, 0, 4)` and `numMois = substr(mois, 4, 2)`. */
  function Split(mois: Month): (e: MonthEntry)
    ensures e.mois == mois
    ensures |mois| == 6 ==> |e.numAnnee| == 4 && |e.numMois| == 2
    ensures |mois| == 6 ==> e.numAnnee == mois[..4] && e.numMois == mois[4..]
  {
    MonthEntry(mois, Substr(mois, 0, 4), Substr(mois, 4, 2))
  }

  /** Concatenating the two parts gives the key back exactly when it has at most six characters. */
  lemma SplitRoundTrip(mois: Month)
    ensures Split(mois).numAnnee + Split(mois).numMois == mois <==> |mois| <= 6
  {
    var e := Split(mois);
    if |mois| <= 4 {
      assert e.numAnnee == mois;
    } else if |mois| <= 6 {
      assert e.numAnnee == mois[..4] && e.numMois == mois[4..];
      assert mois[..4] + mois[4..] == mois;
    } else {
      assert |e.numAnnee + e.numMois| == 6;
    }
  }

  predicate IsGreatest(m: Month, ms: set<Month>) {
    m in ms && forall x :: x in ms ==> LexLe(x, m)
  }

  lemma {:induction false} GreatestExists(ms: set<Month>)
    requires ms != {}
    ensures exists m :: IsGreatest(m, ms)
    decreases |ms|
  {
    var x :| x in ms;
    var rest := ms - {x};
    if rest == {} {
      assert ms == {x};
      LexLeReflexive(x);
      assert IsGreatest(x, ms);
    } else {
      GreatestExists(rest);
      var g :| IsGreatest(g, rest);
      LexLeTotal(x, g);
      LexLeReflexive(x);
      if LexLe(x, g) {
        assert IsGreatest(g, ms);
      } else {
        forall y | y in ms
          ensures LexLe(y, x)
        {
          if y != x {
            LexLeTransitive(y, g, x);
          }
        }
        assert IsGreatest(x, ms);
      }
    }
  }

  lemma GreatestUnique(a: Month, b: Month, ms: set<Month>)
    requires IsGreatest(a, ms) && IsGreatest(b, ms)
    ensures a == b
  {
    LexLeAntisymmetric(a, b);
  }

  /** `MAX(mois)` over a non-empty set of keys. */
  function MaxMonth(ms: set<Month>): (m: Month)
    requires ms != {}
    ensures m in ms
    ensures forall x :: x in ms ==> LexLe(x, m)
  {
    GreatestExists(ms);
    assert forall a, b :: IsGreatest(a, ms) && IsGreatest(b, ms) ==> a == b by {
      forall a, b | IsGreatest(a, ms) && IsGreatest(b, ms)
        ensures a == b
      {
        GreatestUnique(a, b, ms);
      }
    }
    var m :| IsGreatest(m, ms);
    m
  }

  /** Putting a key above every element in front of a strictly decreasing listing keeps it strictly decreasing. */
  lemma PrependDesc(m: Month, rest: seq<Month>)
    requires forall x :: x in rest ==> LexLt(x, m)
    requires forall i, j :: 0 <= i < j < |rest| ==> LexLt(rest[j], rest[i])
    ensures forall i, j :: 0 <= i < j < |[m] + rest| ==> LexLt(([m] + rest)[j], ([m] + rest)[i])
  {
    var r := [m] + rest;
    forall i, j | 0 <= i < j < |r|
      ensures LexLt(r[j], r[i])
    {
      assert r[j] == rest[j - 1];
      if i == 0 {
        assert rest[j - 1] in rest;
      } else {
        assert r[i] == rest[i - 1];
      }
    }
  }

  lemma RemoveOne(ms: set<Month>, m: Month)
    requires m in ms
    ensures |ms - {m}| == |ms| - 1
  {
  }

  /** The keys of ms listed as `ORDER BY mois desc` lists them. */
  function SortDesc(ms: set<Month>): (r: seq<Month>)
    ensures |r| == |ms|
    ensures forall i :: 0 <= i < |r| ==> r[i] in ms
    ensures forall x :: x in ms ==> x in r
    ensures forall i, j :: 0 <= i < j < |r| ==> LexLt(r[j], r[i])
    decreases |ms|
  {
    if ms == {} then []
    else
      var m := MaxMonth(ms);
      RemoveOne(ms, m);
      var rest := SortDesc(ms - {m});
      PrependDesc(m, rest);
      [m] + rest
  }
}

=== FILE: pdogsb.dfy ===
/**
 * The data-access class `PdoGsb`: each method is one (or a few) SQL
 * statements over the tables of `Schema`, restated as a pure function from
 * the database before the call to the database after it. An `UPDATE` or
 * `DELETE` whose `WHERE` matches no row changes nothing; an `INSERT` whose
 * primary key already exists fails silently (PDO's default error mode in
 * PHP 7) and changes nothing either.
 */
module PdoGsb {
  import opened Wrappers
  import opened Text
  import opened Months
  import opened Schema

  /** Every table but `fichefrais` is the same in d and r. */
  predicate AutresTablesQueFiches(d: Database, r: Database) {
    r.forfait == d.forfait && r.catalogue == d.catalogue
    && r.horsForfait == d.horsForfait && r.nextId == d.nextId
  }

  /** Of all the rows, at most the sheet (v, m) differs between d and r. */
  predicate SeuleFicheChange(d: Database, r: Database, v: VisiteurId, m: Month) {
    && AutresTablesQueFiches(d, r)
    && r.fiches.Keys == d.fiches.Keys
    && forall k :: k in d.fiches && k != (v, m) ==> r.fiches[k] == d.fiches[k]
  }

  /** Of all the rows, at most the free-form line `id` differs between d and r. */
  predicate SeuleLigneChange(d: Database, r: Database, id: LigneId) {
    && r.fiches == d.fiches && r.forfait == d.forfait
    && r.catalogue == d.catalogue && r.nextId == d.nextId
    && r.horsForfait.Keys == d.horsForfait.Keys
    && forall i :: i in d.horsForfait && i != id ==> r.horsForfait[i] == d.horsForfait[i]
  }

  // ---------------------------------------------------------------- queries

  /** `estPremierFraisMois`: the visitor has no sheet yet for the month. */
  function EstPremierFraisMois(d: Db, v: VisiteurId, m: Month): (r: bool)
    ensures r <==> forall k :: k in d.fiches ==> k != (v, m)
  {
    (v, m) !in d.fiches
  }

  /** `dernierMoisSaisi`: `MAX(mois)` over the visitor's sheets; NULL when there is none. */
  function DernierMoisSaisi(d: Db, v: VisiteurId): (r: Option<Month>)
    ensures r.None? <==> MoisDe(d.fiches, v) == {}
    ensures r.Some? ==> (v, r.value) in d.fiches
    ensures r.Some? ==> forall m :: m in MoisDe(d.fiches, v) ==> LexLe(m, r.value)
  {
    var ms := MoisDe(d.fiches, v);
    if ms == {} then None else Some(MaxMonth(ms))
  }

  /** The month column of a listing. */
  function MoisDesEntrees(r: seq<MonthEntry>): (ms: seq<Month>)
    ensures |ms| == |r|
    ensures forall i :: 0 <= i < |r| ==> ms[i] == r[i].mois
  {
    seq(|r|, i requires 0 <= i < |r| => r[i].mois)
  }

  /** Each key of a listing, split. */
  function Entrees(ms: seq<Month>): (r: seq<MonthEntry>)
    ensures MoisDesEntrees(r) == ms
    ensures |r| == |ms|
    ensures forall i :: 0 <= i < |r| ==> r[i] == Split(ms[i]) && r[i].mois == ms[i]
  {
    var r := seq(|ms|, i requires 0 <= i < |ms| => Split(ms[i]));
    assert MoisDesEntrees(r) == ms;
    r
  }

  /** A set of keys listed latest first, each split into year and month. */
  function Listing(ms: set<Month>): (r: seq<MonthEntry>)
    ensures |r| == |ms|
    ensures forall i :: 0 <= i < |r| ==> r[i].mois in ms && r[i] == Split(r[i].mois)
    ensures forall m :: m in ms ==> exists i :: 0 <= i < |r| && r[i].mois == m
    ensures forall i, j :: 0 <= i < j < |r| ==> LexLt(r[j].mois, r[i].mois)
  {
    var sorted := SortDesc(ms);
    var r := Entrees(sorted);
    forall m | m in ms
      ensures exists i :: 0 <= i < |r| && r[i].mois == m
    {
      var i :| 0 <= i < |sorted| && sorted[i] == m;
      assert r[i].mois == m;
    }
    r
  }

  /** `getLesMoisDisponibles`: the visitor's months, latest first, each split into year and month. */
  function GetLesMoisDisponibles(d: Db, v: VisiteurId): (r: seq<MonthEntry>)
    ensures |r| == |MoisDe(d.fiches, v)|
    ensures forall i :: 0 <= i < |r| ==> (v, r[i].mois) in d.fiches && r[i] == Split(r[i].mois)
    ensures forall m :: (v, m) in d.fiches ==> exists i :: 0 <= i < |r| && r[i].mois == m
    ensures forall i, j :: 0 <= i < j < |r| ==> LexLt(r[j].mois, r[i].mois)
  {
    Listing(MoisDe(d.fiches, v))
  }

  /** The visitors whose sheet for month x is validated. */
  function VisiteursVA(d: Database, x: Month): (vs: set<VisiteurId>)
    ensures forall v :: v in vs <==> (v, x) in d.fiches && d.fiches[(v, x)].etat == VA
  {
    set k | k in d.fiches.Keys && k.1 == x && d.fiches[k].etat == VA :: k.0
  }

  /** The months that have at least one validated sheet. */
  function MoisVA(d: Database): (ms: set<Month>)
    ensures forall x :: x in ms <==> VisiteursVA(d, x) != {}
  {
    var ms := set k | k in d.fiches.Keys && d.fiches[k].etat == VA :: k.1;
    assert forall x :: x in ms ==> VisiteursVA(d, x) != {} by {
      forall x | x in ms
        ensures VisiteursVA(d, x) != {}
      {
        var k :| k in d.fiches.Keys && d.fiches[k].etat == VA && k.1 == x;
        assert k.0 in VisiteursVA(d, x);
      }
    }
    ms
  }

  ghost predicate StrictementDecroissant(ms: seq<Month>) {
    forall i, j :: 0 <= i < j < |ms| ==> LexLt(ms[j], ms[i])
  }

  function Repeat(x: Month, n: nat): (r: seq<Month>)
    ensures |r| == n
    ensures forall i :: 0 <= i < n ==> r[i] == x
    ensures multiset(r) == multiset{}[x := n]
  {
    if n == 0 then [] else Repeat(x, n - 1) + [x]
  }

  lemma TailBelowHead(ms: seq<Month>)
    requires ms != [] && StrictementDecroissant(ms)
    ensures forall x :: x in ms[1..] ==> LexLt(x, ms[0])
    ensures ms[0] !in ms[1..]
  {
    forall x | x in ms[1..]
      ensures LexLt(x, ms[0])
    {
      var k :| 0 <= k < |ms[1..]| && ms[1..][k] == x;
      assert ms[k + 1] == x;
    }
  }

  /** Each key of ms repeated once per validated sheet of that month, keeping the order of ms. */
  function ParFiche(d: Database, ms: seq<Month>): (r: seq<Month>)
    requires StrictementDecroissant(ms)
    ensures forall x :: x in r ==> x in ms
    ensures forall i, j :: 0 <= i < j < |r| ==> LexLe(r[j], r[i])
  {
    if ms == [] then []
    else
      var head := Repeat(ms[0], |VisiteursVA(d, ms[0])|);
      var rest := ParFiche(d, ms[1..]);
      TailBelowHead(ms);
      LexLeReflexive(ms[0]);
      var r := head + rest;
      assert forall i, j :: 0 <= i < j < |r| ==> LexLe(r[j], r[i]) by {
        forall i, j | 0 <= i < j < |r|
          ensures LexLe(r[j], r[i])
        {
          if j >= |head| {
            assert r[j] == rest[j - |head|] && r[j] in rest;
            if i < |head| {
              assert r[i] == ms[0];
            }
          }
        }
      }
      r
  }

  lemma {:induction false} ParFicheCompte(d: Database, ms: seq<Month>)
    requires StrictementDecroissant(ms)
    ensures forall x :: multiset(ParFiche(d, ms))[x] == if x in ms then |VisiteursVA(d, x)| else 0
  {
    if ms != [] {
      ParFicheCompte(d, ms[1..]);
      TailBelowHead(ms);
      var head := Repeat(ms[0], |VisiteursVA(d, ms[0])|);
      var rest := ParFiche(d, ms[1..]);
      assert ParFiche(d, ms) == head + rest;
      assert multiset(ParFiche(d, ms)) == multiset(head) + multiset(rest);
      assert ms == [ms[0]] + ms[1..];
      forall x
        ensures multiset(ParFiche(d, ms))[x] == if x in ms then |VisiteursVA(d, x)| else 0
      {
        assert x in ms <==> x == ms[0] || x in ms[1..];
      }
    }
  }

  /**
   * `getLesMoisVA`: one entry per validated sheet (of any visitor), latest
   * month first; a month validated for several visitors appears once per visitor.
   */
  function GetLesMoisVA(d: Db): (r: seq<MonthEntry>)
    ensures forall i :: 0 <= i < |r| ==> r[i] == Split(r[i].mois) && VisiteursVA(d, r[i].mois) != {}
    ensures forall i, j :: 0 <= i < j < |r| ==> LexLe(r[j].mois, r[i].mois)
    ensures forall x :: multiset(MoisDesEntrees(r))[x] == |VisiteursVA(d, x)|
  {
    var sorted := SortDesc(MoisVA(d));
    var ms := ParFiche(d, sorted);
    ParFicheCompte(d, sorted);
    var r := Entrees(ms);
    forall i | 0 <= i < |r|
      ensures VisiteursVA(d, r[i].mois) != {}
    {
      assert r[i].mois == ms[i] && ms[i] in ms;
    }
    forall x
      ensures multiset(MoisDesEntrees(r))[x] == |VisiteursVA(d, x)|
    {
      if x !in sorted {
        assert x !in MoisVA(d);
      }
    }
    r
  }

  // ------------------------------------------------------------ transitions

  /** `majEtatFicheFrais`: the sheet (v, m) gets the state etat and the date now; nothing else changes. */
  function MajEtatFicheFrais(d: Db, v: VisiteurId, m: Month, etat: Etat, now: Tick): (r: Db)
    ensures SeuleFicheChange(d, r, v, m)
    ensures (v, m) in d.fiches ==>
      && r.fiches[(v, m)].etat == etat && r.fiches[(v, m)].dateModif == now
      && r.fiches[(v, m)].nbJustificatifs == d.fiches[(v, m)].nbJustificatifs
      && r.fiches[(v, m)].montantValide == d.fiches[(v, m)].montantValide
  {
    if (v, m) in d.fiches then
      d.(fiches := d.fiches[(v, m) := d.fiches[(v, m)].(etat := etat, dateModif := now)])
    else d
  }

  /** `rembourserFiche`: the sheet (v, m) becomes reimbursed, its validated amount untouched. */
  function RembourserFiche(d: Db, v: VisiteurId, m: Month, now: Tick): (r: Db)
    ensures SeuleFicheChange(d, r, v, m)
    ensures (v, m) in d.fiches ==>
      && r.fiches[(v, m)].etat == RB && r.fiches[(v, m)].dateModif == now
      && r.fiches[(v, m)].nbJustificatifs == d.fiches[(v, m)].nbJustificatifs
      && r.fiches[(v, m)].montantValide == d.fiches[(v, m)].montantValide
  {
    if (v, m) in d.fiches then
      d.(fiches := d.fiches[(v, m) := d.fiches[(v, m)].(etat := RB, dateModif := now)])
    else d
  }

  /** The visitor's latest sheet, the one `creeNouvellesLignesFrais` closes when it is still open. */
  predicate EstDerniereEnCours(d: Database, v: VisiteurId, dm: Month) {
    && (v, dm) in d.fiches
    && d.fiches[(v, dm)].etat == CR
    && forall m :: m in MoisDe(d.fiches, v) ==> LexLe(m, dm)
  }

  /** First half of `creeNouvellesLignesFrais`: close the latest sheet if it is still `CR`. */
  function ClotureDerniere(d: Db, v: VisiteurId, now: Tick): (r: Db)
    ensures AutresTablesQueFiches(d, r) && r.fiches.Keys == d.fiches.Keys
    ensures forall dm :: EstDerniereEnCours(d, v, dm) ==>
      r.fiches[(v, dm)] == d.fiches[(v, dm)].(etat := CL, dateModif := now)
    ensures forall k :: k in d.fiches && !EstDerniereEnCours(d, v, k.1) ==> r.fiches[k] == d.fiches[k]
    ensures forall k :: k in d.fiches && k.0 != v ==> r.fiches[k] == d.fiches[k]
  {
    match DernierMoisSaisi(d, v)
    case None => d
    case Some(dm) =>
      assert forall x :: EstDerniereEnCours(d, v, x) ==> x == dm by {
        forall x | EstDerniereEnCours(d, v, x)
          ensures x == dm
        {
          LexLeAntisymmetric(x, dm);
        }
      }
      if d.fiches[(v, dm)].etat == CR then MajEtatFicheFrais(d, v, dm, CL, now) else d
  }

  /** The flat-rate lines of (v, m) that `creeNouvellesLignesFrais` inserts, one per catalogue id. */
  function LignesInitiales(cat: seq<FraisForfait>, v: VisiteurId, m: Month): (ks: set<(VisiteurId, Month, FraisId)>)
    ensures forall k :: k in ks <==> k.0 == v && k.1 == m && k.2 in IdsFrais(cat)
  {
    set t | t in IdsFrais(cat) :: (v, m, t)
  }

  /**
   * `creeNouvellesLignesFrais`: close the visitor's latest sheet when it is
   * still `CR`, insert the sheet (v, m) as `CR` with no receipt and no
   * amount, and insert a zero quantity for every catalogue id.
   */
  function CreeNouvellesLignesFrais(d: Db, v: VisiteurId, m: Month, now: Tick): (r: Db)
    ensures r.fiches.Keys == d.fiches.Keys + {(v, m)}
    // the latest open sheet is closed, every other existing sheet is kept
    ensures forall dm :: EstDerniereEnCours(d, v, dm) ==>
      r.fiches[(v, dm)] == d.fiches[(v, dm)].(etat := CL, dateModif := now)
    ensures forall k :: k in d.fiches && !EstDerniereEnCours(d, v, k.1) ==> r.fiches[k] == d.fiches[k]
    ensures forall k :: k in d.fiches && k.0 != v ==> r.fiches[k] == d.fiches[k]
    // the new sheet
    ensures (v, m) !in d.fiches ==> r.fiches[(v, m)] == FicheFrais(CR, 0, 0, now)
    // the seeded flat-rate lines
    ensures forall k :: k in d.forfait ==> k in r.forfait && r.forfait[k] == d.forfait[k]
    ensures forall k :: k in r.forfait && k !in d.forfait ==>
      k.0 == v && k.1 == m && k.2 in IdsFrais(d.catalogue) && r.forfait[k] == 0
    ensures forall t :: t in IdsFrais(d.catalogue) ==> (v, m, t) in r.forfait
    ensures (v, m) !in d.fiches ==> forall t :: (v, m, t) in r.forfait <==> t in IdsFrais(d.catalogue)
    ensures (v, m) !in d.fiches ==> forall t :: t in IdsFrais(d.catalogue) ==> r.forfait[(v, m, t)] == 0
    ensures r.catalogue == d.catalogue && r.horsForfait == d.horsForfait && r.nextId == d.nextId
  {
    var d1 := ClotureDerniere(d, v, now);
    var fiches := InsereFiche(d1.fiches, v, m, now);
    var forfait := SemeForfait(d1.forfait, LignesInitiales(d1.catalogue, v, m));
    var r := Database(fiches, forfait, d1.catalogue, d1.horsForfait, d1.nextId);
    assert forall k :: k in forfait ==> (k.0, k.1) in fiches;
    r
  }

  /** The sheet insert of `creeNouvellesLignesFrais`: a duplicate key fails silently and changes nothing. */
  function InsereFiche(fiches: map<(VisiteurId, Month), FicheFrais>, v: VisiteurId, m: Month, now: Tick)
    : (r: map<(VisiteurId, Month), FicheFrais>)
    ensures r.Keys == fiches.Keys + {(v, m)}
    ensures forall k :: k in fiches ==> r[k] == fiches[k]
    ensures (v, m) !in fiches ==> r[(v, m)] == FicheFrais(CR, 0, 0, now)
  {
    if (v, m) in fiches then fiches else fiches[(v, m) := FicheFrais(CR, 0, 0, now)]
  }

  /** The flat-rate inserts of `creeNouvellesLignesFrais`: each key of ks without a line gets quantity 0. */
  function SemeForfait(forfait: map<(VisiteurId, Month, FraisId), int>, ks: set<(VisiteurId, Month, FraisId)>)
    : (r: map<(VisiteurId, Month, FraisId), int>)
    ensures r.Keys == forfait.Keys + ks
    ensures forall k :: k in forfait ==> r[k] == forfait[k]
    ensures forall k :: k in ks && k !in forfait ==> r[k] == 0
  {
    map k | k in forfait.Keys + ks :: if k in forfait then forfait[k] else 0
  }

  /**
   * `majFraisForfait`: every existing line (v, m, id) whose id is a key of
   * lesFrais takes the quantity lesFrais[id]; keys without a line are ignored.
   */
  function MajFraisForfait(d: Db, v: VisiteurId, m: Month, lesFrais: map<FraisId, int>): (r: Db)
    ensures r.forfait.Keys == d.forfait.Keys
    ensures forall t :: (v, m, t) in d.forfait && t in lesFrais ==> r.forfait[(v, m, t)] == lesFrais[t]
    ensures forall k :: k in d.forfait && (k.0 != v || k.1 != m || k.2 !in lesFrais) ==> r.forfait[k] == d.forfait[k]
    ensures r.fiches == d.fiches && r.catalogue == d.catalogue
    ensures r.horsForfait == d.horsForfait && r.nextId == d.nextId
  {
    d.(forfait := map k | k in d.forfait ::
      if k.0 == v && k.1 == m && k.2 in lesFrais then lesFrais[k.2] else d.forfait[k])
  }

  /**
   * `creeNouveauFraisHorsForfait`: insert a line under the next auto-increment
   * id; the display date is converted by the caller-supplied `versStockage`
   * (`dateFrancaisVersAnglais`).
   */
  function CreeNouveauFraisHorsForfait(d: Db, v: VisiteurId, m: Month, libelle: string, date: string,
                                       montant: Montant, versStockage: string -> string): (r: Db)
    ensures d.nextId !in d.horsForfait
    ensures r.horsForfait.Keys == d.horsForfait.Keys + {d.nextId}
    ensures r.horsForfait[d.nextId] == LigneHorsForfait(v, m, libelle, versStockage(date), montant)
    ensures forall i :: i in d.horsForfait ==> r.horsForfait[i] == d.horsForfait[i]
    ensures r.nextId == d.nextId + 1
    ensures r.fiches == d.fiches && r.forfait == d.forfait && r.catalogue == d.catalogue
  {
    d.(horsForfait := d.horsForfait[d.nextId := LigneHorsForfait(v, m, libelle, versStockage(date), montant)],
       nextId := d.nextId + 1)
  }

  /** The line `id` exists and belongs to the sheet (v, m). */
  predicate LigneDe(d: Database, id: LigneId, v: VisiteurId, m: Month) {
    id in d.horsForfait && d.horsForfait[id].visiteur == v && d.horsForfait[id].mois == m
  }

  /**
   * `majFraisHorsForfait`: when line `id` belongs to (v, m), its label, date
   * and amount are replaced; otherwise the `WHERE` matches nothing.
   */
  function MajFraisHorsForfait(d: Db, v: VisiteurId, m: Month, libelle: string, date: string,
                               montant: Montant, id: LigneId, versStockage: string -> string): (r: Db)
    ensures SeuleLigneChange(d, r, id)
    ensures LigneDe(d, id, v, m) ==> r.horsForfait[id] == LigneHorsForfait(v, m, libelle, versStockage(date), montant)
    ensures !LigneDe(d, id, v, m) ==> r == d
  {
    if LigneDe(d, id, v, m) then
      d.(horsForfait := d.horsForfait[id := LigneHorsForfait(v, m, libelle, versStockage(date), montant)])
    else d
  }

  /** `supprimerFraisHorsForfait`: delete line `id`, whatever its sheet or that sheet's state. */
  function SupprimerFraisHorsForfait(d: Db, id: LigneId): (r: Db)
    ensures r.horsForfait.Keys == d.horsForfait.Keys - {id}
    ensures forall i :: i in r.horsForfait ==> r.horsForfait[i] == d.horsForfait[i]
    ensures r.fiches == d.fiches && r.forfait == d.forfait && r.catalogue == d.catalogue && r.nextId == d.nextId
  {
    d.(horsForfait := d.horsForfait - {id})
  }

  /** The label a refused line gets: `LEFT(CONCAT("REFUSE", " ", libelle), 100)`. */
  function LibelleRefuse(libelle: string): (r: string)
    ensures EstRefuse(r)
    ensures |r| <= LibelleMax
    ensures StartsWith(RefusePrefix + " " + libelle, r)
    ensures |r| == if |libelle| + 7 <= LibelleMax then |libelle| + 7 else LibelleMax
    ensures |libelle| + 7 <= LibelleMax ==> r == RefusePrefix + " " + libelle
  {
    Left(RefusePrefix + " " + libelle, LibelleMax)
  }

  /** `refuserFraisHorsForfait`: prefix the label of line `id` with "REFUSE ", cut to 100 characters. */
  function RefuserFraisHorsForfait(d: Db, id: LigneId): (r: Db)
    ensures SeuleLigneChange(d, r, id)
    ensures id in d.horsForfait ==>
      var l, l' := d.horsForfait[id], r.horsForfait[id];
      && l'.libelle == LibelleRefuse(l.libelle)
      && l'.visiteur == l.visiteur && l'.mois == l.mois && l'.date == l.date && l'.montant == l.montant
  {
    if id in d.horsForfait then
      d.(horsForfait := d.horsForfait[id := d.horsForfait[id].(libelle := LibelleRefuse(d.horsForfait[id].libelle))])
    else d
  }

  /** What `reporterFraisHorsForfait` returns beside the new database: the month written. */
  datatype Report = Report(db: Db, mois: Month)

  /**
   * `reporterFraisHorsForfait`: line `id` moves to `moisSuivant(ceMois)`
   * (`getMoisSuivant`, supplied by the caller), which is also returned. No
   * sheet is created for that month.
   */
  function ReporterFraisHorsForfait(d: Db, id: LigneId, ceMois: Month, moisSuivant: Month -> Month): (r: Report)
    ensures r.mois == moisSuivant(ceMois)
    ensures SeuleLigneChange(d, r.db, id)
    ensures id in d.horsForfait ==>
      var l, l' := d.horsForfait[id], r.db.horsForfait[id];
      && l'.mois == r.mois
      && l'.visiteur == l.visiteur && l'.libelle == l.libelle && l'.date == l.date && l'.montant == l.montant
  {
    var mois := moisSuivant(ceMois);
    var db := if id in d.horsForfait then d.(horsForfait := d.horsForfait[id := d.horsForfait[id].(mois := mois)]) else d;
    Report(db, mois)
  }

  /**
   * `calculMontantValide`: the sheet's `montantValide` becomes the sum of the
   * two totals it is given; nothing else changes.
   */
  function CalculMontantValide(d: Db, v: VisiteurId, m: Month, montantTotal: Montant, montantTotalHF: Montant): (r: Db)
    ensures SeuleFicheChange(d, r, v, m)
    ensures (v, m) in d.fiches ==>
      && r.fiches[(v, m)].montantValide == montantTotal + montantTotalHF
      && r.fiches[(v, m)].etat == d.fiches[(v, m)].etat
      && r.fiches[(v, m)].nbJustificatifs == d.fiches[(v, m)].nbJustificatifs
      && r.fiches[(v, m)].dateModif == d.fiches[(v, m)].dateModif
  {
    if (v, m) in d.fiches then
      d.(fiches := d.fiches[(v, m) := d.fiches[(v, m)].(montantValide := montantTotal + montantTotalHF)])
    else d
  }
}

=== FILE: scenarios.dfy ===
/**
 * Worked examples of the lifecycle on a one-type catalogue: a visitor enters
 * three transport units at 10.00 and a 42.50 taxi fare in January 2024.
 */
module Scenarios {
  import opened Months
  import opened Schema
  import opened PdoGsb
  import opened Totaux
  import opened Lifecycle

  const Transport: FraisForfait := FraisForfait("KM", "transport", 1000)
  const Vide: Db := Database(map[], map[], [Transport], map[], 0)

  /** The January sheet after the visitor's entries, before any accountant action. */
  function Saisie(versStockage: string -> string): (d: Db)
    ensures ("a131", "202401") in d.fiches && d.fiches[("a131", "202401")].etat == CR
    ensures MontantTotal(d, "a131", "202401") == 3000
    ensures MontantTotalHorsF(d, "a131", "202401") == 4250
    ensures LigneDe(d, 0, "a131", "202401") && d.horsForfait[0].libelle == "Taxi"
  {
    var d1 := CreeNouvellesLignesFrais(Vide, "a131", "202401", 1);
    NouvelleFicheAZero(Vide, "a131", "202401", 1);
    var d2 := MajFraisForfait(d1, "a131", "202401", map["KM" := 3]);
    MajUneQuantite(d1, "a131", "202401", 0, 3);
    var d3 := CreeNouveauFraisHorsForfait(d2, "a131", "202401", "Taxi", "15/01/2024", 4250, versStockage);
    CreationAjouteLaLigne(d2, "a131", "202401", "Taxi", "15/01/2024", 4250, versStockage);
    assert !EstRefuse("Taxi");
    d3
  }

  /** Validating the sheet stores 30.00 + 42.50. */
  lemma ValidationComplete(versStockage: string -> string)
    ensures var d := Saisie(versStockage);
      var d1 := CalculMontantValide(d, "a131", "202401", MontantTotal(d, "a131", "202401"), MontantTotalHorsF(d, "a131", "202401"));
      var d2 := MajEtatFicheFrais(d1, "a131", "202401", VA, 2);
      d2.fiches[("a131", "202401")].montantValide == 7250 && d2.fiches[("a131", "202401")].etat == VA
  {
  }

  /** Refusing the taxi fare first relabels it and leaves 30.00. */
  lemma ValidationApresRefus(versStockage: string -> string)
    ensures var d := RefuserFraisHorsForfait(Saisie(versStockage), 0);
      var d1 := CalculMontantValide(d, "a131", "202401", MontantTotal(d, "a131", "202401"), MontantTotalHorsF(d, "a131", "202401"));
      d.horsForfait[0].libelle == "REFUSE Taxi" && d1.fiches[("a131", "202401")].montantValide == 3000
  {
    var s := Saisie(versStockage);
    RefusExclutDuMontantValide(s, 0, "a131", "202401");
    assert LibelleRefuse("Taxi") == "REFUSE Taxi";
  }

  /** Opening February while January is still open closes January and opens February with a zero line. */
  lemma OuvertureFevrier(versStockage: string -> string)
    ensures var d := CreeNouvellesLignesFrais(Saisie(versStockage), "a131", "202402", 3);
      && d.fiches[("a131", "202401")].etat == CL
      && d.fiches[("a131", "202402")] == FicheFrais(CR, 0, 0, 3)
      && d.forfait[("a131", "202402", "KM")] == 0
  {
    var s := Saisie(versStockage);
    assert MoisDe(s.fiches, "a131") == {"202401"};
    assert EstDerniereEnCours(s, "a131", "202401") by {
      Text.LexLeReflexive("202401");
    }
    assert "KM" in IdsFrais(s.catalogue);
  }
}

=== FILE: schema.dfy ===
/**
 * The `gsb_frais` tables the expense-sheet lifecycle touches, as maps keyed
 * by their primary keys, and the invariants those keys give them.
 */
module Schema {
  import opened Text
  import opened Months

  type VisiteurId = string
  /** `fraisforfait.id`, for instance "ETP" or "KM". */
  type FraisId = string
  /** `lignefraishorsforfait.id`, an auto-increment key. */
  type LigneId = nat
  /** Amounts in cents: the decimal columns without floating point. */
  type Montant = int
  /** A value of SQL `now()`, supplied by the caller. */
  type Tick = nat

  /** `fichefrais.idEtat`: created, closed, validated, reimbursed. */
  datatype Etat = CR | CL | VA | RB

  /** A row of `fichefrais`, keyed by (visitor, month). */
  datatype FicheFrais = FicheFrais(etat: Etat, nbJustificatifs: int, montantValide: Montant, dateModif: Tick)

  /** A row of the catalogue `fraisforfait`. */
  datatype FraisForfait = FraisForfait(id: FraisId, libelle: string, montant: Montant)

  /** A row of `lignefraishorsforfait`, keyed by its id; the date is in storage format. */
  datatype LigneHorsForfait = LigneHorsForfait(
    visiteur: VisiteurId, mois: Month, libelle: string, date: string, montant: Montant)

  datatype Database = Database(
    fiches: map<(VisiteurId, Month), FicheFrais>,
    /** `lignefraisforfait`: the quantity of one catalogue type in one sheet. */
    forfait: map<(VisiteurId, Month, FraisId), int>,
    /** `fraisforfait` in `ORDER BY id` order. */
    catalogue: seq<FraisForfait>,
    horsForfait: map<LigneId, LigneHorsForfait>,
    /** The next value of the auto-increment counter of `lignefraishorsforfait`. */
    nextId: LigneId)

  /** The catalogue's primary key: no id twice. */
  predicate CatalogueKeyed(cat: seq<FraisForfait>) {
    forall i, j :: 0 <= i < j < |cat| ==> cat[i].id != cat[j].id
  }

  predicate Wf(d: Database) {
    && CatalogueKeyed(d.catalogue)
    // auto-increment: every id handed out so far is below the counter
    && (forall id :: id in d.horsForfait ==> id < d.nextId)
    // flat-rate lines are only ever created together with their sheet
    && (forall k :: k in d.forfait ==> (k.0, k.1) in d.fiches)
  }

  type Db = d: Database | Wf(d) witness Database(map[], map[], [], map[], 0)

  /** The catalogue ids, `getLesIdFrais`. */
  function IdsFrais(cat: seq<FraisForfait>): (ids: set<FraisId>)
    ensures forall i :: 0 <= i < |cat| ==> cat[i].id in ids
    ensures forall t :: t in ids ==> exists i :: 0 <= i < |cat| && cat[i].id == t
  {
    set i | 0 <= i < |cat| :: cat[i].id
  }

  /** The months for which the visitor has a sheet. */
  function MoisDe(fiches: map<(VisiteurId, Month), FicheFrais>, v: VisiteurId): (ms: set<Month>)
    ensures forall m :: m in ms <==> (v, m) in fiches
  {
    set k | k in fiches.Keys && k.0 == v :: k.1
  }

  const RefusePrefix: string := "REFUSE"
  /** The width of `lignefraishorsforfait.libelle`, enforced by `LEFT(..., 100)`. */
  const LibelleMax: nat := 100

  /** A refused line is one whose label matches `LIKE "REFUSE%"`. */
  predicate EstRefuse(libelle: string) {
    StartsWith(libelle, RefusePrefix)
  }
}

=== FILE: sql_null.dfy ===
/**
 * The validated amount as the SQL of `calculMontantValide` actually computes
 * it: `SUM` over no row is NULL, and `NULL + x` is NULL. A sheet without any
 * free-form line that is not refused therefore gets NULL instead of its
 * flat-rate total. The rest of the model reads an empty sum as 0, as
 * `COALESCE(SUM(...), 0)` would.
 */
module SqlNull {
  import opened Wrappers
  import opened Months
  import opened Schema
  import opened PdoGsb
  import opened Totaux
  import Scenarios
  import Lifecycle

  /** `montantTotalHorsF` with SQL's NULL: None when no line qualifies. */
  function MontantTotalHorsFSql(d: Db, v: VisiteurId, m: Month): (r: Option<Montant>)
    ensures r.None? <==> forall i :: i in d.horsForfait ==> !RetenueHF(d.horsForfait[i], v, m)
  {
    if exists i :: i in d.horsForfait && RetenueHF(d.horsForfait[i], v, m)
    then Some(MontantTotalHorsF(d, v, m)) else None
  }

  /** `montantTotal` with SQL's NULL: None when the sheet has no flat-rate line of a catalogue type. */
  function MontantTotalSql(d: Db, v: VisiteurId, m: Month): (r: Option<Montant>)
    ensures r.None? <==> forall j :: 0 <= j < |d.catalogue| ==> (v, m, d.catalogue[j].id) !in d.forfait
  {
    if exists j :: 0 <= j < |d.catalogue| && (v, m, d.catalogue[j].id) in d.forfait
    then Some(MontantTotal(d, v, m)) else None
  }

  /** `:montantTotal + :montantTotalHF` in SQL: NULL as soon as either side is NULL. */
  function SommeSql(a: Option<Montant>, b: Option<Montant>): (r: Option<Montant>)
    ensures r.Some? <==> a.Some? && b.Some?
    ensures r.Some? ==> r.value == a.value + b.value
  {
    if a.Some? && b.Some? then Some(a.value + b.value) else None
  }

  /** The 0-for-empty total is exactly the SQL total with NULL read as 0. */
  lemma MontantTotalHorsFCoalesce(d: Db, v: VisiteurId, m: Month)
    ensures MontantTotalHorsFSql(d, v, m).GetOr(0) == MontantTotalHorsF(d, v, m)
  {
    if MontantTotalHorsFSql(d, v, m).None? {
      SommeHFNulle(d.horsForfait, v, m, d.nextId);
    }
  }

  /** The January sheet with its three transport units and no free-form line. */
  function SansHorsForfait(): (d: Db)
    ensures ("a131", "202401") in d.fiches
    ensures MontantTotal(d, "a131", "202401") == 3000
    ensures d.horsForfait == map[]
  {
    var d1 := CreeNouvellesLignesFrais(Scenarios.Vide, "a131", "202401", 1);
    Lifecycle.NouvelleFicheAZero(Scenarios.Vide, "a131", "202401", 1);
    Lifecycle.MajUneQuantite(d1, "a131", "202401", 0, 3);
    MajFraisForfait(d1, "a131", "202401", map["KM" := 3])
  }

  /** As written: validating a sheet with 30.00 of flat-rate expenses and no free-form line writes NULL. */
  lemma MontantValideNulTelQuel()
    ensures var d := SansHorsForfait();
      && MontantTotalSql(d, "a131", "202401") == Some(3000)
      && MontantTotalHorsFSql(d, "a131", "202401") == None
      && SommeSql(MontantTotalSql(d, "a131", "202401"), MontantTotalHorsFSql(d, "a131", "202401")) == None
  {
    var d := SansHorsForfait();
    assert (("a131", "202401", "KM")) in d.forfait;
  }

  /** Corrected: with the empty sum read as 0 the same sheet is validated at 30.00. */
  lemma MontantValideCorrige()
    ensures var d := SansHorsForfait();
      var d1 := CalculMontantValide(d, "a131", "202401", MontantTotal(d, "a131", "202401"), MontantTotalHorsF(d, "a131", "202401"));
      d1.fiches[("a131", "202401")].montantValide == 3000
  {
    var d := SansHorsForfait();
    MontantTotalHorsFCoalesce(d, "a131", "202401");
  }
}

=== FILE: text.dfy ===
/**
 * The few string operations of PHP and MySQL that the repository relies on:
 * `LEFT`, `substr`, `LIKE 'p%'` and the ordering MySQL uses for `MAX` and
 * `ORDER BY` on character columns.
 */
module Text {

  /** `s LIKE 'p%'`: s begins with p (case-sensitive, see README). */
  predicate StartsWith(s: string, p: string) {
    p <= s
  }

  /** MySQL `LEFT(s, n)`: the first n characters of s, or all of s when it is shorter. */
  function Left(s: string, n: nat): (r: string)
    ensures StartsWith(s, r)
    ensures |r| == if |s| < n then |s| else n
  {
    if |s| <= n then s else s[..n]
  }

  /**
   * PHP `substr(s, start, len)` for non-negative start and len. PHP 7 answers
   * `false` when s is shorter than start; that is read as the empty string.
   */
  function Substr(s: string, start: nat, len: nat): (r: string)
    ensures |s| <= start ==> r == []
    ensures start <= |s| ==> StartsWith(s[start..], r)
    ensures start <= |s| ==> |r| == if |s| - start < len then |s| - start else len
  {
    if |s| <= start then []
    else if |s| - start <= len then s[start..]
    else s[start..start + len]
  }

  /** Lexicographic order on character strings, as MySQL orders `CHAR` month keys. */
  predicate LexLe(a: string, b: string)
    decreases |a|
  {
    if |a| == 0 then true
    else if |b| == 0 then false
    else if a[0] != b[0] then a[0] < b[0]
    else LexLe(a[1..], b[1..])
  }

  predicate LexLt(a: string, b: string) {
    LexLe(a, b) && a != b
  }

  lemma {:induction false} LexLeReflexive(a: string)
    ensures LexLe(a, a)
    decreases |a|
  {
    if |a| > 0 {
      LexLeReflexive(a[1..]);
    }
  }

  lemma {:induction false} LexLeAntisymmetric(a: string, b: string)
    requires LexLe(a, b) && LexLe(b, a)
    ensures a == b
    decreases |a|
  {
    if |a| > 0 && |b| > 0 {
      LexLeAntisymmetric(a[1..], b[1..]);
      assert a == [a[0]] + a[1..] && b == [b[0]] + b[1..];
    }
  }

  lemma {:induction false} LexLeTransitive(a: string, b: string, c: string)
    requires LexLe(a, b) && LexLe(b, c)
    ensures LexLe(a, c)
    decreases |a|
  {
    if |a| > 0 && |b| > 0 && |c| > 0 && a[0] == b[0] && b[0] == c[0] {
      LexLeTransitive(a[1..], b[1..], c[1..]);
    }
  }

  lemma {:induction false} LexLeTotal(a: string, b: string)
    ensures LexLe(a, b) || LexLe(b, a)
    decreases |a|
  {
    if |a| > 0 && |b| > 0 && a[0] == b[0] {
      LexLeTotal(a[1..], b[1..]);
    }
  }
}

=== FILE: totals.dfy ===
/**
 * The two aggregate queries behind a sheet's validated amount:
 * `montantTotal` (flat-rate lines joined with the catalogue) and
 * `montantTotalHorsF` (free-form lines not refused). An empty `SUM` is
 * taken as 0.
 */
module Totaux {
  import opened Months
  import opened Schema

  // ------------------------------------------------------------ flat rate

  /** What catalogue type f adds to the sheet (v, m): quantity times unit amount, nothing without a line. */
  function MontantLigneForfait(forfait: map<(VisiteurId, Month, FraisId), int>, v: VisiteurId, m: Month,
                               f: FraisForfait): Montant
  {
    if (v, m, f.id) in forfait then forfait[(v, m, f.id)] * f.montant else 0
  }

  /** `SUM(quantite * montant)` over the lines of (v, m) joined with the catalogue cat. */
  function SommeForfait(forfait: map<(VisiteurId, Month, FraisId), int>, cat: seq<FraisForfait>,
                        v: VisiteurId, m: Month): Montant
  {
    if cat == [] then 0
    else SommeForfait(forfait, cat[..|cat| - 1], v, m) + MontantLigneForfait(forfait, v, m, cat[|cat| - 1])
  }

  /** `montantTotal`: a sheet whose lines all have quantity 0 (or that has none) totals 0. */
  function MontantTotal(d: Db, v: VisiteurId, m: Month): (r: Montant)
    ensures (forall t :: (v, m, t) in d.forfait ==> d.forfait[(v, m, t)] == 0) ==> r == 0
  {
    SommeForfaitNulleSi(d.forfait, d.catalogue, v, m);
    SommeForfait(d.forfait, d.catalogue, v, m)
  }

  /** Two tables that give every catalogue type the same amount in (v, m) give the same sum. */
  lemma {:induction false} SommeForfaitFrame(a: map<(VisiteurId, Month, FraisId), int>,
                                             b: map<(VisiteurId, Month, FraisId), int>,
                                             cat: seq<FraisForfait>, v: VisiteurId, m: Month)
    requires forall j :: 0 <= j < |cat| ==> MontantLigneForfait(a, v, m, cat[j]) == MontantLigneForfait(b, v, m, cat[j])
    ensures SommeForfait(a, cat, v, m) == SommeForfait(b, cat, v, m)
  {
    if cat != [] {
      SommeForfaitFrame(a, b, cat[..|cat| - 1], v, m);
    }
  }

  /** When the tables differ only on the type cat[j], the sums differ by exactly that type's amounts. */
  lemma {:induction false} SommeForfaitPoint(a: map<(VisiteurId, Month, FraisId), int>,
                                             b: map<(VisiteurId, Month, FraisId), int>,
                                             cat: seq<FraisForfait>, v: VisiteurId, m: Month, j: nat)
    requires CatalogueKeyed(cat) && j < |cat|
    requires forall i :: 0 <= i < |cat| && i != j ==>
      MontantLigneForfait(a, v, m, cat[i]) == MontantLigneForfait(b, v, m, cat[i])
    ensures SommeForfait(b, cat, v, m) - MontantLigneForfait(b, v, m, cat[j])
         == SommeForfait(a, cat, v, m) - MontantLigneForfait(a, v, m, cat[j])
  {
    var n := |cat| - 1;
    var init := cat[..n];
    assert CatalogueKeyed(init);
    if j == n {
      SommeForfaitFrame(a, b, init, v, m);
    } else {
      assert init[j] == cat[j];
      SommeForfaitPoint(a, b, init, v, m, j);
    }
  }

  lemma SommeForfaitNulleSi(forfait: map<(VisiteurId, Month, FraisId), int>,
                            cat: seq<FraisForfait>, v: VisiteurId, m: Month)
    ensures (forall t :: (v, m, t) in forfait ==> forfait[(v, m, t)] == 0) ==> SommeForfait(forfait, cat, v, m) == 0
  {
    if forall t :: (v, m, t) in forfait ==> forfait[(v, m, t)] == 0 {
      SommeForfaitNulle(forfait, cat, v, m);
    }
  }

  /** A sheet whose every line has quantity 0 sums to 0. */
  lemma {:induction false} SommeForfaitNulle(forfait: map<(VisiteurId, Month, FraisId), int>,
                                             cat: seq<FraisForfait>, v: VisiteurId, m: Month)
    requires forall t :: (v, m, t) in forfait ==> forfait[(v, m, t)] == 0
    ensures SommeForfait(forfait, cat, v, m) == 0
  {
    if cat != [] {
      SommeForfaitNulle(forfait, cat[..|cat| - 1], v, m);
    }
  }

  // ------------------------------------------------------------ free form

  /** A line that `montantTotalHorsF`'s `WHERE` keeps for (v, m). */
  predicate RetenueHF(l: LigneHorsForfait, v: VisiteurId, m: Month) {
    l.visiteur == v && l.mois == m && !EstRefuse(l.libelle)
  }

  /** What line l adds to the sheet (v, m): its amount when it belongs there and is not refused. */
  function ApportLigne(l: LigneHorsForfait, v: VisiteurId, m: Month): Montant {
    if RetenueHF(l, v, m) then l.montant else 0
  }

  function ApportHF(lignes: map<LigneId, LigneHorsForfait>, i: LigneId, v: VisiteurId, m: Month): Montant {
    if i in lignes then ApportLigne(lignes[i], v, m) else 0
  }

  /** `SUM(montant)` over the lines with an id below n that belong to (v, m) and are not refused. */
  function SommeHF(lignes: map<LigneId, LigneHorsForfait>, v: VisiteurId, m: Month, n: nat): Montant {
    if n == 0 then 0 else SommeHF(lignes, v, m, n - 1) + ApportHF(lignes, n - 1, v, m)
  }

  /**
   * `montantTotalHorsF`, summed over the ids below the auto-increment counter,
   * which are all the ids there are: 0 when no line of (v, m) counts.
   */
  function MontantTotalHorsF(d: Db, v: VisiteurId, m: Month): (r: Montant)
    ensures (forall i :: i in d.horsForfait ==> ApportLigne(d.horsForfait[i], v, m) == 0) ==> r == 0
  {
    SommeHFNulleSi(d.horsForfait, v, m, d.nextId);
    SommeHF(d.horsForfait, v, m, d.nextId)
  }

  /** A table in which no line counts for (v, m) sums to 0 for it. */
  lemma {:induction false} SommeHFNulle(lignes: map<LigneId, LigneHorsForfait>, v: VisiteurId, m: Month, n: nat)
    requires forall i :: i in lignes ==> ApportLigne(lignes[i], v, m) == 0
    ensures SommeHF(lignes, v, m, n) == 0
  {
    if n > 0 {
      SommeHFNulle(lignes, v, m, n - 1);
    }
  }

  lemma SommeHFNulleSi(lignes: map<LigneId, LigneHorsForfait>, v: VisiteurId, m: Month, n: nat)
    ensures (forall i :: i in lignes ==> ApportLigne(lignes[i], v, m) == 0) ==> SommeHF(lignes, v, m, n) == 0
  {
    if forall i :: i in lignes ==> ApportLigne(lignes[i], v, m) == 0 {
      SommeHFNulle(lignes, v, m, n);
    }
  }

  /**
   * When two tables differ at most on line id, their sums differ by exactly
   * what that line adds in each (nothing when id is beyond the counter).
   */
  lemma {:induction false} SommeHFPoint(a: map<LigneId, LigneHorsForfait>, b: map<LigneId, LigneHorsForfait>,
                                        v: VisiteurId, m: Month, n: nat, id: LigneId)
    requires forall i :: 0 <= i < n && i != id ==> ApportHF(a, i, v, m) == ApportHF(b, i, v, m)
    ensures id < n ==> SommeHF(b, v, m, n) - ApportHF(b, id, v, m) == SommeHF(a, v, m, n) - ApportHF(a, id, v, m)
    ensures n <= id ==> SommeHF(b, v, m, n) == SommeHF(a, v, m, n)
  {
    if n > 0 {
      SommeHFPoint(a, b, v, m, n - 1, id);
    }
  }

  /** Line i is the same in both databases, or absent from both. */
  ghost predicate MemeLigne(d: Database, r: Database, i: LigneId) {
    && (i in d.horsForfait <==> i in r.horsForfait)
    && (i in d.horsForfait ==> d.horsForfait[i] == r.horsForfait[i])
  }

  /** The free-form total of every sheet, after line id changes in a table that keeps the counter. */
  lemma TotalHFPoint(d: Db, r: Db, id: LigneId)
    requires r.nextId == d.nextId
    requires forall i :: i != id ==> MemeLigne(d, r, i)
    ensures forall v, m ::
      (MontantTotalHorsF(r, v, m)
        == MontantTotalHorsF(d, v, m) - ApportHF(d.horsForfait, id, v, m) + ApportHF(r.horsForfait, id, v, m))
  {
    forall v, m
      ensures MontantTotalHorsF(r, v, m)
        == MontantTotalHorsF(d, v, m) - ApportHF(d.horsForfait, id, v, m) + ApportHF(r.horsForfait, id, v, m)
    {
      forall i | 0 <= i < d.nextId && i != id
        ensures ApportHF(d.horsForfait, i, v, m) == ApportHF(r.horsForfait, i, v, m)
      {
        assert MemeLigne(d, r, i);
      }
      SommeHFPoint(d.horsForfait, r.horsForfait, v, m, d.nextId, id);
      if d.nextId <= id {
        assert id !in d.horsForfait && id !in r.horsForfait;
      }
    }
  }
}

=== FILE: wrappers.dfy ===
/** A value that may be missing: what a SQL query gives when no row matches. */
module Wrappers {

  datatype Option<+T> = None | Some(value: T) {

    /** The value when there is one, and `default` when it is missing. */
    function GetOr(default: T): T {
      match this
      case Some(v) => v
      case None => default
    }
  }
}
